=== FILE: README.md ===
# Sparse matrix: a Dafny model

This project models the `SparseMatrix` class of `code/src/sparse_matrix.py`.
A matrix has two declared dimensions and a dictionary from populated
`(row, col)` coordinates to integer values. An absent coordinate reads as
zero. The project models these operations:

- `get_element` and `set_element`. Writing a zero deletes the coordinate.
- `add` and `subtract`. Each checks that the shapes agree, then walks the
  union of both operands' populated coordinates and writes each combined
  value through `set_element`.
- `multiply`. It checks `a.num_cols == b.num_rows`, then walks `a`'s
  populated coordinates `(i, k)`. For each one it visits every column `j` in
  `range(b.num_cols)` and does a read-modify-write through `set_element`.
- The file decoder `read_from_file`, as a pure function of the lines that
  `readlines` returns.

Layout, one module per file:

- `text.dfy` (`Text`): the parts of Python's string handling the decoder
  uses.
  - `str.strip` with Python's whitespace set.
  - `str.split` on one character, with its inverse `Join`.
  - `int()` on an optionally signed decimal numeral.
  - Decimal rendering, used to write matrix files.
- `sparse.dfy` (`Sparse`): the matrix value, `Get`, `Set`, the error
  values and the canonical-representation lemma.
- `elementwise.dfy` (`Elementwise`): `add` and `subtract`. Each is a loop
  method proved equal to a reference map comprehension `Combined`.
- `product.dfy` (`Product`): `multiply`. It is a nested loop method
  proved to meet `IsProduct`, which defines each entry as a sum over `a`'s
  populated coordinates.
- `decoder.dfy` (`Decoder`): the decoder as written (`Decode`), the
  corrected decoder (`DecodeStripped`), and their laws.
- `round_trip.dfy` (`RoundTrip`): a writer of matrix files, the round trip
  through the corrected decoder, and the rejection by the decoder as
  written.

Failures are values, not exceptions.

- `DimensionMismatch(op)` is returned by `add`, `subtract` and `multiply`.
- `FormatError` is the decoder's single failure. It covers every
  exception the `try` block turns into `ValueError`, including a file with
  fewer than two lines.

The model follows the code in these places:

- The header value is the *second* `'='`-separated piece of the line. A
  third piece and beyond is dropped.
- Parsed entries are stored as they are. Zero values are stored, and
  coordinates are not checked against the dimensions.
- The `'('`/`')'` test looks at the raw line, trailing `'\n'` included.
  See Findings.

## Model

| member | source | states |
|---|---|---|
| Sparse.Get | code/src/sparse_matrix.py:34-35 | Reading never fails. A populated coordinate gives its stored value and any other gives 0. In a zero-free store a coordinate is populated exactly when it reads as non-zero. |
| Sparse.Set | code/src/sparse_matrix.py:37-41 | Afterwards the written coordinate reads as `value` and every other coordinate reads as before. A non-zero value is stored. A zero removes the coordinate, and is a no-op when the coordinate was absent. No other coordinate joins or leaves the store. Dimensions and zero-freedom are kept. |
| Sparse.Empty | code/src/sparse_matrix.py:2-5 | A matrix built from dimensions alone has those dimensions, reads as 0 everywhere and stores no zero. |
| Sparse.Canonical | code/src/sparse_matrix.py:37-41 | Because `set_element` never stores a zero, two zero-free stores that read alike at every coordinate are equal. |
| Elementwise.Combined | code/src/sparse_matrix.py:47-50 | The reference result of `add`/`subtract`. It has the left operand's shape, reads as the combination of the two operands at every coordinate, stores no zero, and populates only coordinates populated in an operand. |
| Elementwise.CombineEach | code/src/sparse_matrix.py:47-52 | The loop over the union of the two operands' keys, visited in any order, ends with exactly `Combined`. |
| Elementwise.Add | code/src/sparse_matrix.py:43-52 | Fails with the addition mismatch exactly when the row counts or the column counts differ. Otherwise the result has `a`'s shape, reads `a + b` at every coordinate, stores no zero, and its keys lie within the union of the operands' keys. |
| Elementwise.Subtract | code/src/sparse_matrix.py:54-63 | As `Add`, with the subtraction mismatch and `a - b`. |
| Elementwise.AddThenSubtract | code/src/sparse_matrix.py:43-63 | For a zero-free `a`, `(a + b) - b` is `a`, store included. |
| Elementwise.AddEmpty | code/src/sparse_matrix.py:43-52 | Adding a matrix with an empty store gives back a zero-free `a`. |
| Elementwise.SubtractSelf | code/src/sparse_matrix.py:54-63 | `a - a` stores nothing, even when `a` itself stores zeros. |
| Elementwise.AddCommutes | code/src/sparse_matrix.py:43-52 | The sum's store does not depend on the operand order. |
| Elementwise.AddExample | code/src/sparse_matrix.py:43-52 | {(0,0):1, (1,1):2} + {(0,1):3} = {(0,0):1, (0,1):3, (1,1):2}. |
| Product.Multiply | code/src/sparse_matrix.py:65-75 | Fails with the multiplication mismatch exactly when `a.numCols != b.numRows`. Otherwise the result has shape `a.numRows` by `b.numCols` and stores no zero. Each entry (i, j) with j in `[0, b.numCols)` is the sum of `a[i,k] * b[k,j]` over `a`'s populated (i, k). Every other column is 0. |
| Product.TermSumRemove | code/src/sparse_matrix.py:71 | The sum over `a`'s keys does not depend on the order the dictionary yields them in: any key can be taken first. |
| Product.ProductUnique | code/src/sparse_matrix.py:71-75 | Two results that both meet the product definition are the same matrix, so the visiting order cannot change the outcome. |
| Product.ProductWithEmptyRight | code/src/sparse_matrix.py:71-73 | A right operand with an empty store gives a product with an empty store. |
| Product.ProductEntryIsDotProduct | code/src/sparse_matrix.py:71-73 | When `a`'s keys lie inside its shape, entry (i, j) of the product is the dense sum of `a[i,k] * b[k,j]` for k in `[0, a.numCols)`. |
| Product.ProductExample | code/src/sparse_matrix.py:65-75 | {(0,0):1, (1,1):2} times {(0,1):3} is {(0,1):3}. Entry (1,1) is 0·3 + 2·0, so it is not stored. |
| Text.Strip | code/src/sparse_matrix.py:14 | The stripped text has no leading or trailing whitespace, is no longer than the input, and is empty exactly when the input is all whitespace. |
| Text.StripPadded | code/src/sparse_matrix.py:18 | Stripping removes exactly the surrounding whitespace around an unpadded core. |
| Text.SplitPiecesFree | code/src/sparse_matrix.py:22 | No piece that `split` returns contains the separator. |
| Text.SplitJoins | code/src/sparse_matrix.py:22 | Joining the pieces of a split with the separator gives the input back, so no text is lost or reordered. |
| Text.SplitOfJoin | code/src/sparse_matrix.py:14 | Splitting pieces that were joined with a separator they do not contain gives the pieces back. |
| Text.Split | code/src/sparse_matrix.py:22 | `split` on one character gives at least one piece. `SplitPiecesFree`, `SplitJoins` and `SplitOfJoin` pin down which pieces. |
| Text.ParseInt | code/src/sparse_matrix.py:26-28 | `int()` succeeds exactly on a non-empty run of ASCII digits, optionally after one '+' or '-'. So `abc`, `1.5`, `0x1`, a bare `+` or `-`, and a token with whitespace are all rejected, which is why every call reads a stripped field. `IntToString` shows it reads every canonical decimal rendering back as its integer, and the three lemmas below give the value of the other forms. |
| Text.ParseIntLeadingZero | code/src/sparse_matrix.py:26-28 | A leading zero does not change the value: `int("007")` is `int("7")`. |
| Text.ParseIntPlus | code/src/sparse_matrix.py:26-28 | An explicit '+' does not change the value: `int("+5")` is `int("5")`. |
| Text.ParseIntMinus | code/src/sparse_matrix.py:26-28 | A '-' negates the value of the digits after it, so `int("-0")` is 0. |
| Text.IntToString | code/src/sparse_matrix.py:26-28 | Rendering an integer in decimal gives a non-empty unpadded numeral that `int()` reads back as that integer. |
| Decoder.DecodeWith | code/src/sparse_matrix.py:14-32 | Every failure is the format error, and fewer than two lines always fail. A success carries the two header values as its dimensions. |
| Decoder.HeaderValue | code/src/sparse_matrix.py:14-15 | A header yields a value only if the line holds '='; a line without one is rejected, as the index `[1]` fails. `HeaderTakesSecondPiece` shows the value is the second '='-piece. |
| Decoder.ParseEntry | code/src/sparse_matrix.py:19-28 | An entry is found exactly when the text starts with '(' and ends with a separate ')', and the text between them splits on ',' into fields that `ParseFields` accepts. The entry is that parse of the interior, which therefore holds a ','. |
| Decoder.ParseFields | code/src/sparse_matrix.py:23-28 | The fields give an entry exactly when there are three of them and each stripped field reads as an integer; the entry's row, column and value are those three integers in order. |
| Decoder.Classify | code/src/sparse_matrix.py:18 | A line after the headers is skipped exactly when its strip is empty, as `if line.strip():` does. |
| Decoder.ClassifyFollowsParse | code/src/sparse_matrix.py:18-28 | A non-blank line is a data line exactly when its view parses as an entry, and the entry the loop stores is that parse. |
| Decoder.ClassifyAll | code/src/sparse_matrix.py:17-18 | The lines after the headers are classified one for one, in file order. |
| Decoder.Store | code/src/sparse_matrix.py:17-29 | The loop only adds or overwrites coordinates and never removes one. `StoreLastWins`, `StoreUntouched` and `StoreSucceedsExactlyWhen` characterize the rest. |
| Decoder.Decode | code/src/sparse_matrix.py:14-32 | The decoder as written: a success means every non-blank line after the headers, trailing '\n' included, starts with '(' and ends with ')'. |
| Decoder.DecodeStripped | code/src/sparse_matrix.py:14-32 | The corrected decoder: a success means every non-blank line after the headers starts with '(' and ends with ')' once stripped. |
| Decoder.DecodeSucceedsExactlyWhen | code/src/sparse_matrix.py:14-29 | Decoding succeeds if and only if the first two lines each have an integer as their second `'='`-piece and every non-blank later line parses as an entry under the chosen view. With `ParseEntry`'s contract, that means the line starts with '(', ends with ')', and its interior splits into three integer fields. |
| Decoder.DecodeLastWins | code/src/sparse_matrix.py:17-29 | A data line with no later data line for the same coordinate decides that coordinate's stored value, zeros and out-of-shape coordinates included. |
| Decoder.DecodedKeysComeFromLines | code/src/sparse_matrix.py:17-29 | Every stored coordinate was written by some data line. |
| Decoder.StoreUntouched | code/src/sparse_matrix.py:17-29 | A coordinate that no data line writes keeps its earlier state. |
| Decoder.NewlineTerminatedDataLineRejected | code/src/sparse_matrix.py:18-20 | A non-blank line after the headers that ends in '\n' makes the decode fail. |
| Decoder.HeaderTakesSecondPiece | code/src/sparse_matrix.py:14-15 | For `name=value` followed by nothing or by more `'='`-pieces, the header value is `value` read as an integer. The label and everything after a second '=' are ignored. |
| RoundTrip.HeaderLine | code/src/sparse_matrix.py:14-15 | A written header line `name=n\n` reads back as n. |
| RoundTrip.ParseEntryText | code/src/sparse_matrix.py:19-29 | A written entry `(row, col, value)` parses back to that entry. |
| RoundTrip.DecodeStrippedRoundTrip | code/src/sparse_matrix.py:14-29 | The corrected decoder reads every written matrix file back as the same matrix: dimensions, store and stored zeros. |
| RoundTrip.RawDecodeRejectsEncoding | code/src/sparse_matrix.py:17-20 | The decoder as written rejects every written matrix file that holds at least one entry. |

## Left out

- `main` (lines 77-105): argument handling and printing are command-line I/O.
- Opening and reading the file: the decoder takes the list of lines that
  `readlines` returns.
- Exception messages and chaining (`raise ... from e`): every decoder
  failure is the one `FormatError`. Each dimension mismatch carries only
  its operation.
- Python `int()`: `int(x.strip())` is modelled as `ParseInt(Strip(x))`,
  which accepts an optional sign followed by ASCII decimal digits.
  Underscores between digits, non-ASCII digits and the interpreter's
  limit on digit count are not modelled.
- Dictionary iteration order: keys are visited in an arbitrary order.
  `Product.ProductUnique` and `Elementwise.CombineEach` show that the
  order does not change the result.
- Mutation: the source mutates `result` in place. The model threads a
  value through `Set`. The operands are never changed because they are
  values.
- The `SparseMatrix(file_path=...)` constructor is the decoder. The
  dimension-only constructor is `Sparse.Empty`. Dimensions left as `None`
  are not modelled: every model matrix has integer dimensions.

## Findings

| source | as written | input that shows it | evidently intended | confidence | as-written member | corrected member |
|---|---|---|---|---|---|---|
| code/src/sparse_matrix.py:19 | The '(' and ')' test is applied to the raw line, which still ends in '\n' whenever it is not the last line of the file. | The file `rows=2\ncols=2\n(0, 0, 1)\n(1, 1, 2)\n`: line `(0, 0, 1)\n` does not end with ')', so the whole file is rejected. | Test the stripped line, as the blank-line test on line 18 does. A file with an entry on any line but the last can then be read. | high; not executed | RoundTrip.RawDecodeRejectsEncoding | RoundTrip.DecodeStrippedRoundTrip |

=== FILE: decoder.dfy ===
/** The matrix-file decoder, as a pure function of the lines `readlines`
    returns (each line keeps its trailing '\n', except possibly the last).

      line 0:  the row count: the second '='-separated piece of the line,
               stripped and read as an integer
      line 1:  the column count, read the same way
      line 2+: blank lines are skipped; any other line must start with '('
               and end with ')', its interior must split on ',' into
               exactly three fields, and each stripped field must be an
               integer; the entry is stored directly, so a later line for
               the same coordinate overwrites an earlier one, zero values are
               stored and coordinates are never checked against the shape.

    Every failure is the single `FormatError`. The code tests '(' and ')'
    on the raw line; `Stripped` is the corrected reading that tests the
    stripped line instead (see `RoundTrip`). */
module Decoder {

  import opened Text
  import opened Sparse

  datatype Entry = Entry(row: int, col: int, value: int)

  /** Which text the parenthesis check and the field split look at. */
  datatype LineView = Raw | Stripped

  function View(line: string, view: LineView): string {
    match view
    case Raw => line
    case Stripped => Strip(line)
  }

  /** The value of a header line: the second '='-separated piece, stripped
      and read as an integer. The label before the '=' is never looked at. */
  function HeaderValue(line: string): (v: Option<int>)
    ensures v.Some? ==> '=' in line
  {
    var pieces := Split(line, '=');
    IndexOfFirst(line, '=');
    if |pieces| < 2 then None else ParseInt(Strip(pieces[1]))
  }

  /** `text` opens with '(' and closes with a separate ')'. */
  predicate Bracketed(text: string) {
    |text| >= 2 && text[0] == '(' && text[|text| - 1] == ')'
  }

  /** One data line, `text` being the line as the parenthesis test sees it.
      An entry is found exactly when the text is bracketed and the text
      between the brackets splits on ',' into three integer fields; the
      entry is those fields, and the interior holds a ','. */
  function ParseEntry(text: string): (r: Option<Entry>)
    ensures r.Some? <==> Bracketed(text) && ParseFields(Split(text[1..|text| - 1], ',')).Some?
    ensures r.Some? ==> Bracketed(text) && r == ParseFields(Split(text[1..|text| - 1], ','))
    ensures r.Some? ==> Bracketed(text) && ',' in text[1..|text| - 1]
  {
    if !Bracketed(text) then
      None
    else
      var inner := text[1..|text| - 1];
      var parts := Split(inner, ',');
      SplitJoins(inner, ',');
      assert |parts| == 3 ==> inner == parts[0] + [','] + Join(parts[1..], ',');
      assert |parts| == 3 ==> inner[|parts[0]|] == ',';
      ParseFields(parts)
  }

  /** The ','-separated fields between the parentheses: exactly three, each
      an integer once stripped. */
  function ParseFields(parts: seq<string>): (r: Option<Entry>)
    ensures r.Some? <==> |parts| == 3 && forall k :: 0 <= k < 3 ==> ParseInt(Strip(parts[k])).Some?
    ensures r.Some? ==> && ParseInt(Strip(parts[0])) == Some(r.value.row)
                        && ParseInt(Strip(parts[1])) == Some(r.value.col)
                        && ParseInt(Strip(parts[2])) == Some(r.value.value)
  {
    if |parts| != 3 then
      None
    else
      match (ParseInt(Strip(parts[0])), ParseInt(Strip(parts[1])), ParseInt(Strip(parts[2])))
      case (Some(row), Some(col), Some(value)) => Some(Entry(row, col, value))
      case _ => None
  }

  /** How the loop body treats one line after the headers. */
  datatype Line = Blank | Malformed | Data(entry: Entry)

  /** A line is skipped exactly when its strip is empty. */
  function Classify(line: string, view: LineView): (k: Line)
    ensures k.Blank? <==> IsBlank(line)
  {
    if IsBlank(line) then
      Blank
    else
      match ParseEntry(View(line, view))
      case None => Malformed
      case Some(e) => Data(e)
  }

  /** A line that is not blank is a data line exactly when its view parses
      as an entry, and that entry is the one the loop stores. */
  lemma ClassifyFollowsParse(line: string, view: LineView)
    ensures !IsBlank(line) ==> (Classify(line, view).Data? <==> ParseEntry(View(line, view)).Some?)
    ensures Classify(line, view).Data? ==> ParseEntry(View(line, view)) == Some(Classify(line, view).entry)
  {
  }

  /** Every line classified, in order. */
  function ClassifyAll(lines: seq<string>, view: LineView): (kinds: seq<Line>)
    ensures |kinds| == |lines|
    ensures forall i :: 0 <= i < |lines| ==> kinds[i] == Classify(lines[i], view)
    decreases |lines|
  {
    if |lines| == 0 then [] else [Classify(lines[0], view)] + ClassifyAll(lines[1..], view)
  }

  /** The data lines folded left to right into `acc`, each entry stored
      directly; `None` as soon as a line is malformed. */
  function Store(kinds: seq<Line>, acc: map<Coord, int>): (r: Option<map<Coord, int>>)
    ensures r.Some? ==> acc.Keys <= r.value.Keys
    decreases |kinds|
  {
    if |kinds| == 0 then
      Some(acc)
    else
      match kinds[0]
      case Blank => Store(kinds[1..], acc)
      case Malformed => None
      case Data(e) => Store(kinds[1..], acc[(e.row, e.col) := e.value])
  }

  /** Decoding under either view. Every failure is `FormatError`; fewer than
      two lines always fail; a success carries the two header values as
      its dimensions. */
  function DecodeWith(lines: seq<string>, view: LineView): (r: Result<SparseMatrix>)
    ensures r.Err? ==> r.error == FormatError
    ensures |lines| < 2 ==> r.Err?
    ensures r.Ok? ==> HeaderValue(lines[0]) == Some(r.value.numRows)
    ensures r.Ok? ==> HeaderValue(lines[1]) == Some(r.value.numCols)
  {
    if |lines| < 2 then
      Err(FormatError)
    else
      match (HeaderValue(lines[0]), HeaderValue(lines[1]), Store(ClassifyAll(lines[2..], view), map[]))
      case (Some(rows), Some(cols), Some(elements)) => Ok(SparseMatrix(rows, cols, elements))
      case _ => Err(FormatError)
  }

  /** The decoder as the code has it: '(' and ')' are tested on the raw line. */
  function Decode(lines: seq<string>): (r: Result<SparseMatrix>)
    ensures r.Ok? ==> forall i :: 2 <= i < |lines| && !IsBlank(lines[i]) ==> Bracketed(lines[i])
  {
    DecodeSucceedsExactlyWhen(lines, Raw);
    DecodeWith(lines, Raw)
  }

  /** The corrected decoder: '(' and ')' are tested on the stripped line. */
  function DecodeStripped(lines: seq<string>): (r: Result<SparseMatrix>)
    ensures r.Ok? ==> forall i :: 2 <= i < |lines| && !IsBlank(lines[i]) ==> Bracketed(Strip(lines[i]))
  {
    DecodeSucceedsExactlyWhen(lines, Stripped);
    DecodeWith(lines, Stripped)
  }

  /** A decode succeeds with the header values and the stored entries. */
  lemma DecodeFromParts(lines: seq<string>, view: LineView, rows: int, cols: int, elements: map<Coord, int>)
    requires |lines| >= 2
    requires HeaderValue(lines[0]) == Some(rows) && HeaderValue(lines[1]) == Some(cols)
    requires Store(ClassifyAll(lines[2..], view), map[]) == Some(elements)
    ensures DecodeWith(lines, view) == Ok(SparseMatrix(rows, cols, elements))
  {
  }

  /** A successful decode holds the store the data lines fold into. */
  lemma DecodedStore(lines: seq<string>, view: LineView)
    requires DecodeWith(lines, view).Ok?
    ensures |lines| >= 2
    ensures Store(ClassifyAll(lines[2..], view), map[]) == Some(DecodeWith(lines, view).value.elements)
  {
  }

  /** A decode succeeds exactly when both headers and the store do. */
  lemma DecodeOkWhen(lines: seq<string>, view: LineView)
    requires |lines| >= 2
    ensures DecodeWith(lines, view).Ok? <==>
      && HeaderValue(lines[0]).Some?
      && HeaderValue(lines[1]).Some?
      && Store(ClassifyAll(lines[2..], view), map[]).Some?
  {
  }

  /** Entry `i` of `kinds` is a data line for coordinate `key`. */
  predicate Writes(kinds: seq<Line>, i: int, key: Coord) {
    0 <= i < |kinds| && kinds[i].Data? && key == (kinds[i].entry.row, kinds[i].entry.col)
  }

  lemma {:induction false} StoreSucceedsExactlyWhen(kinds: seq<Line>, acc: map<Coord, int>)
    ensures Store(kinds, acc).Some? <==> forall i :: 0 <= i < |kinds| ==> !kinds[i].Malformed?
    decreases |kinds|
  {
    if |kinds| > 0 {
      var tail := kinds[1..];
      assert forall i :: 0 <= i < |tail| ==> tail[i] == kinds[i + 1];
      match kinds[0]
      case Blank => StoreSucceedsExactlyWhen(tail, acc);
      case Malformed =>
      case Data(e) => StoreSucceedsExactlyWhen(tail, acc[(e.row, e.col) := e.value]);
    }
  }

  /** A coordinate no data line writes keeps whatever `acc` had for it. */
  lemma {:induction false} StoreUntouched(kinds: seq<Line>, acc: map<Coord, int>, key: Coord)
    requires Store(kinds, acc).Some?
    requires forall i :: 0 <= i < |kinds| ==> !Writes(kinds, i, key)
    ensures key in Store(kinds, acc).value <==> key in acc
    ensures key in acc ==> Store(kinds, acc).value[key] == acc[key]
    decreases |kinds|
  {
    if |kinds| > 0 {
      var tail := kinds[1..];
      forall j | 0 <= j < |tail| ensures !Writes(tail, j, key) {
        assert tail[j] == kinds[j + 1];
        assert !Writes(kinds, j + 1, key);
      }
      assert !Writes(kinds, 0, key);
      match kinds[0]
      case Blank => StoreUntouched(tail, acc, key);
      case Data(e) => StoreUntouched(tail, acc[(e.row, e.col) := e.value], key);
    }
  }

  /** The last data line for a coordinate decides its stored value. */
  lemma {:induction false} StoreLastWins(kinds: seq<Line>, acc: map<Coord, int>, i: int)
    requires Store(kinds, acc).Some?
    requires 0 <= i < |kinds| && kinds[i].Data?
    requires forall j :: i < j < |kinds| ==> !Writes(kinds, j, (kinds[i].entry.row, kinds[i].entry.col))
    ensures var e := kinds[i].entry;
      (e.row, e.col) in Store(kinds, acc).value && Store(kinds, acc).value[(e.row, e.col)] == e.value
    decreases |kinds|
  {
    var e := kinds[i].entry;
    var key := (e.row, e.col);
    var tail := kinds[1..];
    if i == 0 {
      forall j | 0 <= j < |tail| ensures !Writes(tail, j, key) {
        assert tail[j] == kinds[j + 1];
        assert !Writes(kinds, j + 1, key);
      }
      StoreUntouched(tail, acc[key := e.value], key);
    } else {
      assert tail[i - 1] == kinds[i];
      forall j | i - 1 < j < |tail| ensures !Writes(tail, j, key) {
        assert tail[j] == kinds[j + 1];
        assert !Writes(kinds, j + 1, key);
      }
      match kinds[0]
      case Blank => StoreLastWins(tail, acc, i - 1);
      case Data(e0) => StoreLastWins(tail, acc[(e0.row, e0.col) := e0.value], i - 1);
    }
  }

  /** Decoding succeeds exactly when there are two header lines whose second
      '='-piece is an integer and every non-blank line after them parses as
      an entry. */
  lemma DecodeSucceedsExactlyWhen(lines: seq<string>, view: LineView)
    ensures DecodeWith(lines, view).Ok? <==>
      && |lines| >= 2
      && HeaderValue(lines[0]).Some?
      && HeaderValue(lines[1]).Some?
      && forall i :: 2 <= i < |lines| && !IsBlank(lines[i]) ==> ParseEntry(View(lines[i], view)).Some?
  {
    if |lines| >= 2 {
      var kinds := ClassifyAll(lines[2..], view);
      StoreSucceedsExactlyWhen(kinds, map[]);
      forall i | 2 <= i < |lines|
        ensures kinds[i - 2].Malformed? <==> !IsBlank(lines[i]) && ParseEntry(View(lines[i], view)).None?
      {
        assert kinds[i - 2] == Classify(lines[i], view);
      }
      DecodeOkWhen(lines, view);
    }
  }

  /** Entries are stored as parsed: the last data line for a coordinate
      gives its value, zeros included, wherever the coordinate lies. */
  lemma DecodeLastWins(lines: seq<string>, view: LineView, i: int)
    requires DecodeWith(lines, view).Ok?
    requires 2 <= i < |lines| && Classify(lines[i], view).Data?
    requires forall j :: i < j < |lines| && Classify(lines[j], view).Data? ==>
      (Classify(lines[j], view).entry.row, Classify(lines[j], view).entry.col)
        != (Classify(lines[i], view).entry.row, Classify(lines[i], view).entry.col)
    ensures var e := Classify(lines[i], view).entry;
      var m := DecodeWith(lines, view).value;
      (e.row, e.col) in m.elements && m.elements[(e.row, e.col)] == e.value
  {
    var kinds := ClassifyAll(lines[2..], view);
    var e := Classify(lines[i], view).entry;
    var key := (e.row, e.col);
    DecodedStore(lines, view);
    assert key in Store(kinds, map[]).value && Store(kinds, map[]).value[key] == e.value by {
      LaterLinesDoNotWrite(lines, view, i, key);
      assert kinds[i - 2] == Classify(lines[i], view);
      StoreLastWins(kinds, map[], i - 2);
    }
  }

  /** No data line after line `i` writing `key` means no later classified
      line writes it. */
  lemma LaterLinesDoNotWrite(lines: seq<string>, view: LineView, i: int, key: Coord)
    requires 2 <= i < |lines|
    requires forall j :: i < j < |lines| && Classify(lines[j], view).Data? ==>
      (Classify(lines[j], view).entry.row, Classify(lines[j], view).entry.col) != key
    ensures forall j :: i - 2 < j < |lines| - 2 ==> !Writes(ClassifyAll(lines[2..], view), j, key)
  {
    var kinds := ClassifyAll(lines[2..], view);
    forall j | i - 2 < j < |kinds| ensures !Writes(kinds, j, key) {
      assert kinds[j] == Classify(lines[j + 2], view);
    }
  }

  /** Nothing is stored that no data line wrote. */
  lemma DecodedKeysComeFromLines(lines: seq<string>, view: LineView, key: Coord)
    requires DecodeWith(lines, view).Ok?
    requires key in DecodeWith(lines, view).value.elements
    ensures exists i :: 2 <= i < |lines| && Classify(lines[i], view).Data?
                        && key == (Classify(lines[i], view).entry.row, Classify(lines[i], view).entry.col)
  {
    var kinds := ClassifyAll(lines[2..], view);
    DecodedStore(lines, view);
    if forall i :: 0 <= i < |kinds| ==> !Writes(kinds, i, key) {
      StoreUntouched(kinds, map[], key);
    }
    var i :| 0 <= i < |kinds| && Writes(kinds, i, key);
    assert kinds[i] == Classify(lines[i + 2], view);
  }

  /** The raw-line check: a non-blank data line that still carries its
      '\n' cannot end with ')', so the whole input is rejected. Every line
      `readlines` returns except the last carries one. */
  lemma NewlineTerminatedDataLineRejected(lines: seq<string>, i: int)
    requires 2 <= i < |lines| && !IsBlank(lines[i])
    requires lines[i][|lines[i]| - 1] == '\n'
    ensures Decode(lines) == Err(FormatError)
  {
    var kinds := ClassifyAll(lines[2..], Raw);
    assert ParseEntry(lines[i]) == None;
    assert kinds[i - 2] == Classify(lines[i], Raw) == Malformed;
    StoreSucceedsExactlyWhen(kinds, map[]);
  }

  /** Only the second '='-piece counts: the label before the first '=' is
      ignored and anything from a second '=' on is dropped. */
  lemma HeaderTakesSecondPiece(name: string, value: string, rest: string)
    requires '=' !in name && '=' !in value
    requires rest == [] || rest[0] == '='
    ensures HeaderValue(name + "=" + value + rest) == ParseInt(Strip(value))
  {
    var line := name + "=" + value + rest;
    if rest == [] {
      assert line == Join([name, value], '=');
      SplitOfJoin([name, value], '=');
    } else {
      var more := Split(rest[1..], '=');
      SplitJoins(rest[1..], '=');
      SplitPiecesFree(rest[1..], '=');
      var parts := [name, value] + more;
      assert parts[2..] == more;
      assert Join(parts, '=') == name + "=" + (value + "=" + Join(more, '='));
      assert rest == "=" + rest[1..];
      assert line == Join(parts, '=');
      SplitOfJoin(parts, '=');
    }
  }
}

=== FILE: elementwise.dfy ===
/** Element-wise addition and subtraction. Both check that the shapes agree,
    then visit every coordinate populated in either operand and write the
    combined value into a fresh result through `Set`, which drops zeros. */
module Elementwise {

  import opened Sparse

  datatype Op = Plus | Minus

  function Apply(op: Op, x: int, y: int): int {
    match op
    case Plus => x + y
    case Minus => x - y
  }

  /** The reference result of combining `a` and `b` coordinate by
      coordinate: `a`'s shape, every coordinate reads as the combination
      of the operands' values there, no zero is stored, and only
      coordinates populated in an operand can be populated. */
  function Combined(a: SparseMatrix, b: SparseMatrix, op: Op): (m: SparseMatrix)
    ensures m.numRows == a.numRows && m.numCols == a.numCols
    ensures forall r, c :: Get(m, r, c) == Apply(op, Get(a, r, c), Get(b, r, c))
    ensures NoZeros(m)
    ensures m.elements.Keys <= a.elements.Keys + b.elements.Keys
  {
    var keys := a.elements.Keys + b.elements.Keys;
    SparseMatrix(a.numRows, a.numCols,
      map k | k in keys && Apply(op, Get(a, k.0, k.1), Get(b, k.0, k.1)) != 0
        :: Apply(op, Get(a, k.0, k.1), Get(b, k.0, k.1)))
  }

  /** The loop shared by `add` and `subtract`: walk the union of the
      operands' populated coordinates in any order, writing each combined
      value through `Set`. Whatever the order, the outcome is `Combined`. */
  method CombineEach(a: SparseMatrix, b: SparseMatrix, op: Op) returns (m: SparseMatrix)
    ensures m == Combined(a, b, op)
  {
    m := Empty(a.numRows, a.numCols);
    var todo := a.elements.Keys + b.elements.Keys;
    ghost var done: set<Coord> := {};
    while todo != {}
      invariant todo !! done
      invariant todo + done == a.elements.Keys + b.elements.Keys
      invariant m.numRows == a.numRows && m.numCols == a.numCols
      invariant NoZeros(m)
      invariant m.elements.Keys <= done
      invariant forall r, c :: Get(m, r, c) == if (r, c) in done then Apply(op, Get(a, r, c), Get(b, r, c)) else 0
      decreases todo
    {
      var key :| key in todo;
      m := Set(m, key.0, key.1, Apply(op, Get(a, key.0, key.1), Get(b, key.0, key.1)));
      todo := todo - {key};
      done := done + {key};
    }
    Canonical(m, Combined(a, b, op));
  }

  /** `add`: fails exactly when the row counts or the column counts differ;
      otherwise the result has `a`'s shape, reads as `a + b` at every
      coordinate, stores no zero, and populates only coordinates populated
      in an operand. */
  method Add(a: SparseMatrix, b: SparseMatrix) returns (r: Result<SparseMatrix>)
    ensures r.Err? <==> a.numRows != b.numRows || a.numCols != b.numCols
    ensures r.Err? ==> r.error == DimensionMismatch(Addition)
    ensures r.Ok? ==> r.value == Combined(a, b, Plus)
    ensures r.Ok? ==> r.value.numRows == a.numRows && r.value.numCols == a.numCols
    ensures r.Ok? ==> forall i, j :: Get(r.value, i, j) == Get(a, i, j) + Get(b, i, j)
    ensures r.Ok? ==> NoZeros(r.value) && r.value.elements.Keys <= a.elements.Keys + b.elements.Keys
  {
    if a.numRows != b.numRows || a.numCols != b.numCols {
      return Err(DimensionMismatch(Addition));
    }
    var m := CombineEach(a, b, Plus);
    return Ok(m);
  }

  /** `subtract`: as `Add`, with `a - b` at every coordinate. */
  method Subtract(a: SparseMatrix, b: SparseMatrix) returns (r: Result<SparseMatrix>)
    ensures r.Err? <==> a.numRows != b.numRows || a.numCols != b.numCols
    ensures r.Err? ==> r.error == DimensionMismatch(Subtraction)
    ensures r.Ok? ==> r.value == Combined(a, b, Minus)
    ensures r.Ok? ==> r.value.numRows == a.numRows && r.value.numCols == a.numCols
    ensures r.Ok? ==> forall i, j :: Get(r.value, i, j) == Get(a, i, j) - Get(b, i, j)
    ensures r.Ok? ==> NoZeros(r.value) && r.value.elements.Keys <= a.elements.Keys + b.elements.Keys
  {
    if a.numRows != b.numRows || a.numCols != b.numCols {
      return Err(DimensionMismatch(Subtraction));
    }
    var m := CombineEach(a, b, Minus);
    return Ok(m);
  }

  /** Subtraction undoes addition: for a zero-free `a`, adding `b` and then
      subtracting `b` gives back `a` itself, store included. */
  lemma AddThenSubtract(a: SparseMatrix, b: SparseMatrix)
    requires NoZeros(a)
    ensures Combined(Combined(a, b, Plus), b, Minus) == a
  {
    Canonical(Combined(Combined(a, b, Plus), b, Minus), a);
  }

  /** Adding a matrix with nothing stored gives back a zero-free `a`. */
  lemma AddEmpty(a: SparseMatrix, z: SparseMatrix)
    requires NoZeros(a)
    requires z.elements == map[]
    ensures Combined(a, z, Plus) == a
  {
    Canonical(Combined(a, z, Plus), a);
  }

  /** A matrix minus itself stores nothing, even when its own store holds zeros. */
  lemma SubtractSelf(a: SparseMatrix)
    ensures Combined(a, a, Minus).elements == map[]
  {
    Canonical(Combined(a, a, Minus), Empty(a.numRows, a.numCols));
  }

  /** The sum's store does not depend on the operand order. */
  lemma AddCommutes(a: SparseMatrix, b: SparseMatrix)
    ensures Combined(a, b, Plus).elements == Combined(b, a, Plus).elements
  {
    Canonical(Combined(a, b, Plus), Combined(b, a, Plus));
  }

  /** The worked example: {(0,0):1, (1,1):2} plus {(0,1):3}. */
  lemma AddExample()
    ensures Combined(SparseMatrix(2, 2, map[(0, 0) := 1, (1, 1) := 2]),
                     SparseMatrix(2, 2, map[(0, 1) := 3]), Plus)
         == SparseMatrix(2, 2, map[(0, 0) := 1, (0, 1) := 3, (1, 1) := 2])
  {
    var a := SparseMatrix(2, 2, map[(0, 0) := 1, (1, 1) := 2]);
    var b := SparseMatrix(2, 2, map[(0, 1) := 3]);
    var expected := SparseMatrix(2, 2, map[(0, 0) := 1, (0, 1) := 3, (1, 1) := 2]);
    Canonical(Combined(a, b, Plus), expected);
  }
}

=== FILE: product.dfy ===
/** Matrix multiplication. The algorithm walks only the populated
    coordinates (i, k) of the left operand and, for each, every column j in
    `[0, b.numCols)` of the right operand densely, accumulating
    `a[i,k] * b[k,j]` into entry (i, j) by a read followed by a `Set`. */
module Product {

  import opened Sparse

  /** What the populated coordinate `key` of `a` contributes to entry (i, j). */
  function Term(a: SparseMatrix, b: SparseMatrix, i: int, j: int, key: Coord): int {
    if key.0 == i then Get(a, key.0, key.1) * Get(b, key.1, j) else 0
  }

  /** The sum of the contributions to entry (i, j) of the coordinates in `s`. */
  ghost function TermSum(s: set<Coord>, a: SparseMatrix, b: SparseMatrix, i: int, j: int): int
    decreases s
  {
    if s == {} then 0
    else
      var x := Pick(s);
      Term(a, b, i, j, x) + TermSum(s - {x}, a, b, i, j)
  }

  /** Entry (i, j) of the product: the sum of `a[i,k] * b[k,j]` over the
      populated coordinates (i, k) of `a`. */
  ghost function ProductEntry(a: SparseMatrix, b: SparseMatrix, i: int, j: int): int {
    TermSum(a.elements.Keys, a, b, i, j)
  }

  /** `p` is the product of `a` and `b`: shape `a.numRows` by `b.numCols`,
      no zero stored, entry (i, j) equal to `ProductEntry` for every column
      j in `[0, b.numCols)` and zero at every other column. */
  ghost predicate IsProduct(p: SparseMatrix, a: SparseMatrix, b: SparseMatrix) {
    && p.numRows == a.numRows
    && p.numCols == b.numCols
    && NoZeros(p)
    && forall i, j :: Get(p, i, j) == if 0 <= j < b.numCols then ProductEntry(a, b, i, j) else 0
  }

  /** The order in which `TermSum` takes its elements does not matter: any
      element can be taken first. */
  lemma {:induction false} TermSumRemove(s: set<Coord>, a: SparseMatrix, b: SparseMatrix, i: int, j: int, x: Coord)
    requires x in s
    ensures TermSum(s, a, b, i, j) == Term(a, b, i, j, x) + TermSum(s - {x}, a, b, i, j)
    decreases s
  {
    var y := Pick(s);
    if y != x {
      TermSumRemove(s - {y}, a, b, i, j, x);
      TermSumRemove(s - {x}, a, b, i, j, y);
      assert s - {y} - {x} == s - {x} - {y};
    }
  }

  /** Summing over a disjoint union is summing over each part. */
  lemma {:induction false} TermSumUnion(s: set<Coord>, t: set<Coord>, a: SparseMatrix, b: SparseMatrix, i: int, j: int)
    requires s !! t
    ensures TermSum(s + t, a, b, i, j) == TermSum(s, a, b, i, j) + TermSum(t, a, b, i, j)
    decreases s
  {
    if s == {} {
      assert s + t == t;
    } else {
      var x := Pick(s);
      TermSumRemove(s + t, a, b, i, j, x);
      assert (s + t) - {x} == (s - {x}) + t;
      TermSumUnion(s - {x}, t, a, b, i, j);
      TermSumRemove(s, a, b, i, j, x);
    }
  }

  /** Coordinates that contribute nothing sum to nothing. */
  lemma {:induction false} TermSumZero(s: set<Coord>, a: SparseMatrix, b: SparseMatrix, i: int, j: int)
    requires forall x :: x in s ==> Term(a, b, i, j, x) == 0
    ensures TermSum(s, a, b, i, j) == 0
    decreases s
  {
    if s != {} {
      TermSumZero(s - {Pick(s)}, a, b, i, j);
    }
  }

  /** `multiply`: fails exactly when `a.numCols != b.numRows`; otherwise
      the result is the product of `a` and `b` (see `IsProduct`). The loops
      mirror the source: the populated coordinates of `a` in any order, then
      every column of `b`, each step a read-modify-write through `Set`. */
  method Multiply(a: SparseMatrix, b: SparseMatrix) returns (r: Result<SparseMatrix>)
    ensures r.Err? <==> a.numCols != b.numRows
    ensures r.Err? ==> r.error == DimensionMismatch(Multiplication)
    ensures r.Ok? ==> IsProduct(r.value, a, b)
  {
    if a.numCols != b.numRows {
      return Err(DimensionMismatch(Multiplication));
    }
    var m := Empty(a.numRows, b.numCols);
    var todo := a.elements.Keys;
    ghost var done: set<Coord> := {};
    while todo != {}
      invariant todo !! done
      invariant todo + done == a.elements.Keys
      invariant m.numRows == a.numRows && m.numCols == b.numCols
      invariant NoZeros(m)
      invariant forall i, j :: Get(m, i, j) == if 0 <= j < b.numCols then TermSum(done, a, b, i, j) else 0
      decreases todo
    {
      var key :| key in todo;
      var (i, k) := key;
      ghost var next := done + {key};
      assert next - {key} == done;
      var j := 0;
      while j < b.numCols
        invariant 0 <= j
        invariant m.numRows == a.numRows && m.numCols == b.numCols
        invariant NoZeros(m)
        invariant forall i', j' :: Get(m, i', j') == (
                    if 0 <= j' < b.numCols then
                      (if i' == i && j' < j then TermSum(next, a, b, i', j') else TermSum(done, a, b, i', j'))
                    else 0)
      {
        TermSumRemove(next, a, b, i, j, key);
        m := Set(m, i, j, Get(m, i, j) + Get(a, i, k) * Get(b, k, j));
        j := j + 1;
      }
      forall i', j' ensures TermSum(next, a, b, i', j') == Term(a, b, i', j', key) + TermSum(done, a, b, i', j') {
        TermSumRemove(next, a, b, i', j', key);
      }
      todo := todo - {key};
      done := next;
    }
    return Ok(m);
  }

  /** The product is unique: whatever order the populated coordinates of
      `a` are visited in, the result is the same matrix. */
  lemma ProductUnique(p: SparseMatrix, q: SparseMatrix, a: SparseMatrix, b: SparseMatrix)
    requires IsProduct(p, a, b) && IsProduct(q, a, b)
    ensures p == q
  {
    Canonical(p, q);
  }

  /** Multiplying by a right operand with nothing stored stores nothing. */
  lemma ProductWithEmptyRight(p: SparseMatrix, a: SparseMatrix, b: SparseMatrix)
    requires b.elements == map[]
    requires IsProduct(p, a, b)
    ensures p.elements == map[]
  {
    forall i, j ensures ProductEntry(a, b, i, j) == 0 {
      TermSumZero(a.elements.Keys, a, b, i, j);
    }
    Canonical(p, Empty(p.numRows, p.numCols));
  }

  /** The dense inner product of row i of `a` with column j of `b` over the
      first `n` indices. */
  function DotProduct(a: SparseMatrix, b: SparseMatrix, i: int, j: int, n: nat): int {
    if n == 0 then 0 else DotProduct(a, b, i, j, n - 1) + Get(a, i, n - 1) * Get(b, n - 1, j)
  }

  /** The coordinates (i, 0) .. (i, n-1) of row i. */
  function RowCoords(i: int, n: nat): set<Coord> {
    set k | 0 <= k < n :: (i, k)
  }

  lemma {:induction false} TermSumRow(a: SparseMatrix, b: SparseMatrix, i: int, j: int, n: nat)
    ensures TermSum(RowCoords(i, n), a, b, i, j) == DotProduct(a, b, i, j, n)
    decreases n
  {
    if n == 0 {
      assert RowCoords(i, n) == {};
    } else {
      var x := (i, n - 1);
      assert RowCoords(i, n) - {x} == RowCoords(i, n - 1);
      TermSumRemove(RowCoords(i, n), a, b, i, j, x);
      TermSumRow(a, b, i, j, n - 1);
    }
  }

  /** When every populated coordinate of `a` lies inside its declared shape,
      the sparse sum is the textbook formula: entry (i, j) of the product is
      the sum of `a[i,k] * b[k,j]` for k from 0 to `a.numCols - 1`. */
  lemma ProductEntryIsDotProduct(a: SparseMatrix, b: SparseMatrix, i: int, j: int)
    requires InBounds(a)
    ensures ProductEntry(a, b, i, j) == DotProduct(a, b, i, j, a.numCols)
  {
    var keys := a.elements.Keys;
    var row := RowCoords(i, a.numCols);
    var inside := keys * row;
    assert keys == inside + (keys - row);
    TermSumUnion(inside, keys - row, a, b, i, j);
    assert forall x :: x in keys - row ==> Term(a, b, i, j, x) == 0;
    TermSumZero(keys - row, a, b, i, j);
    assert row == inside + (row - keys);
    TermSumUnion(inside, row - keys, a, b, i, j);
    TermSumZero(row - keys, a, b, i, j);
    TermSumRow(a, b, i, j, a.numCols);
  }

  /** The worked example: {(0,0):1, (1,1):2} times {(0,1):3} is {(0,1):3}.
      Entry (1,1) is a[1,0]*b[0,1] + a[1,1]*b[1,1] = 0*3 + 2*0, so it is not
      stored. */
  lemma ProductExample(p: SparseMatrix)
    requires IsProduct(p, SparseMatrix(2, 2, map[(0, 0) := 1, (1, 1) := 2]),
                          SparseMatrix(2, 2, map[(0, 1) := 3]))
    ensures p.elements == map[(0, 1) := 3]
  {
    var a := SparseMatrix(2, 2, map[(0, 0) := 1, (1, 1) := 2]);
    var b := SparseMatrix(2, 2, map[(0, 1) := 3]);
    var expected := SparseMatrix(2, 2, map[(0, 1) := 3]);
    forall i, j ensures Get(p, i, j) == Get(expected, i, j) {
      TermSumRemove(a.elements.Keys, a, b, i, j, (0, 0));
      assert a.elements.Keys - {(0, 0)} == {(1, 1)};
      TermSumRemove({(1, 1)}, a, b, i, j, (1, 1));
      assert {(1, 1)} - {(1, 1)} == {};
      var entry := Term(a, b, i, j, (0, 0)) + Term(a, b, i, j, (1, 1));
      assert ProductEntry(a, b, i, j) == entry;
      assert entry == (if i == 0 then Get(b, 0, j) else 2 * Get(b, 1, j));
      assert Get(b, 1, j) == 0;
      assert Get(b, 0, j) == (if j == 1 then 3 else 0);
    }
    Canonical(p, expected);
  }
}

=== FILE: round_trip.dfy ===
/** Writing a matrix file and reading it back. A file is written the way
    `readlines` hands it back: the two headers, then one `(row, col, value)`
    line per populated coordinate, every line ending in '\n'.

    Read with the decoder as the code has it, such a file is rejected as
    soon as it holds one entry, because the ')' test sees the '\n'. Read
    with the corrected decoder, which tests the stripped line, it gives the
    matrix back exactly. */
module RoundTrip {

  import opened Text
  import opened Sparse
  import opened Decoder

  /** The three fields of an entry line: the row, then the column and the
      value each after a space. */
  function EntryFields(e: Entry): seq<string> {
    [IntToString(e.row), " " + IntToString(e.col), " " + IntToString(e.value)]
  }

  /** `(row, col, value)` as a writer of matrix files puts it down. */
  function EntryText(e: Entry): string {
    "(" + Join(EntryFields(e), ',') + ")"
  }

  /** One written line per entry, each ending in '\n'. */
  function EntryLines(es: seq<Entry>): seq<string> {
    seq(|es|, i requires 0 <= i < |es| => EntryText(es[i]) + "\n")
  }

  /** A header line: `name=n` and the line end. */
  function HeaderText(name: string, n: int): string {
    Join([name, IntToString(n) + "\n"], '=')
  }

  /** The lines of a matrix file holding the entries `es`. */
  function Encode(rows: int, cols: int, es: seq<Entry>): seq<string> {
    [HeaderText("rows", rows), HeaderText("cols", cols)] + EntryLines(es)
  }

  /** The populated entries of a store, each exactly once, in some order. */
  ghost function Listing(m: map<Coord, int>): seq<Entry>
    decreases m.Keys
  {
    if m == map[] then []
    else
      var k := Pick(m.Keys);
      [Entry(k.0, k.1, m[k])] + Listing(m - {k})
  }

  lemma ListingNonEmpty(m: map<Coord, int>)
    requires m != map[]
    ensures |Listing(m)| >= 1
  {
  }

  lemma EntryTextSplits(e: Entry)
    ensures var t := EntryText(e);
      |t| >= 2 && t[0] == '(' && t[|t| - 1] == ')' && Split(t[1..|t| - 1], ',') == EntryFields(e)
  {
    var parts := EntryFields(e);
    var t := EntryText(e);
    assert t[1..|t| - 1] == Join(parts, ',');
    forall i | 0 <= i < |parts| ensures ',' !in parts[i] {
      var n := if i == 0 then e.row else if i == 1 then e.col else e.value;
      var s := IntToString(n);
      assert parts[i] == s || parts[i] == " " + s;
      assert ',' !in s;
    }
    SplitOfJoin(parts, ',');
  }

  /** A field written as a space followed by the digits of `n` reads back as `n`. */
  lemma SpacedFieldParses(n: int)
    ensures ParseInt(Strip(" " + IntToString(n))) == Some(n)
  {
    assert AllSpace(" ") by {
      assert IsSpace(' ');
    }
    StripLeading(" ", IntToString(n));
  }

  lemma EntryFieldsParse(e: Entry)
    ensures ParseFields(EntryFields(e)) == Some(e)
  {
    StripUnpadded(IntToString(e.row));
    SpacedFieldParses(e.col);
    SpacedFieldParses(e.value);
  }

  /** An entry line parses back to its entry. */
  lemma ParseEntryText(e: Entry)
    ensures ParseEntry(EntryText(e)) == Some(e)
  {
    EntryTextSplits(e);
    EntryFieldsParse(e);
  }

  lemma ClassifyEntryLine(e: Entry)
    ensures Classify(EntryText(e) + "\n", Stripped) == Data(e)
  {
    StripTrailing(EntryText(e), "\n");
    ParseEntryText(e);
  }

  lemma HeaderLine(name: string, n: int)
    requires '=' !in name
    ensures HeaderValue(HeaderText(name, n)) == Some(n)
  {
    var s := IntToString(n);
    assert '=' !in s + "\n";
    SplitOfJoin([name, s + "\n"], '=');
    StripTrailing(s, "\n");
  }

  /** The classification of a line holding each entry. */
  function DataOf(es: seq<Entry>): seq<Line> {
    seq(|es|, i requires 0 <= i < |es| => Data(es[i]))
  }

  /** Storing the listing of `m` on top of `acc` gives `acc` overridden by `m`. */
  lemma {:induction false} StoreListing(m: map<Coord, int>, acc: map<Coord, int>)
    ensures Store(DataOf(Listing(m)), acc) == Some(acc + m)
    decreases m.Keys
  {
    if m == map[] {
      assert acc + m == acc;
    } else {
      var k := Pick(m.Keys);
      var e := Entry(k.0, k.1, m[k]);
      var rest := Listing(m - {k});
      assert Listing(m) == [e] + rest;
      var kinds := DataOf(Listing(m));
      assert kinds[0] == Data(e);
      assert kinds[1..] == DataOf(rest);
      StoreListing(m - {k}, acc[k := m[k]]);
      assert acc[k := m[k]] + (m - {k}) == acc + m;
    }
  }

  lemma StoreListingFromEmpty(m: map<Coord, int>)
    ensures Store(DataOf(Listing(m)), map[]) == Some(m)
  {
    StoreListing(m, map[]);
    assert map[] + m == m;
  }

  lemma ClassifyEncoded(es: seq<Entry>)
    ensures ClassifyAll(EntryLines(es), Stripped) == DataOf(es)
  {
    forall i | 0 <= i < |es| ensures ClassifyAll(EntryLines(es), Stripped)[i] == DataOf(es)[i] {
      ClassifyEntryLine(es[i]);
    }
  }

  lemma EncodedHeaders(rows: int, cols: int, es: seq<Entry>)
    ensures HeaderValue(Encode(rows, cols, es)[0]) == Some(rows)
    ensures HeaderValue(Encode(rows, cols, es)[1]) == Some(cols)
  {
    assert '=' !in "rows" && '=' !in "cols";
    HeaderLine("rows", rows);
    HeaderLine("cols", cols);
  }

  lemma EncodedEntries(m: map<Coord, int>, rows: int, cols: int)
    ensures Store(ClassifyAll(Encode(rows, cols, Listing(m))[2..], Stripped), map[]) == Some(m)
  {
    var es := Listing(m);
    assert Encode(rows, cols, es)[2..] == EntryLines(es);
    ClassifyEncoded(es);
    StoreListingFromEmpty(m);
  }

  /** The corrected decoder reads back every matrix written out: same
      dimensions, same store. */
  lemma DecodeStrippedRoundTrip(m: SparseMatrix)
    ensures DecodeStripped(Encode(m.numRows, m.numCols, Listing(m.elements))) == Ok(m)
  {
    EncodedHeaders(m.numRows, m.numCols, Listing(m.elements));
    EncodedEntries(m.elements, m.numRows, m.numCols);
    DecodeFromParts(Encode(m.numRows, m.numCols, Listing(m.elements)), Stripped, m.numRows, m.numCols, m.elements);
  }

  /** The decoder as the code has it rejects every written matrix file that
      holds an entry. */
  lemma RawDecodeRejectsEncoding(m: SparseMatrix)
    requires m.elements != map[]
    ensures Decode(Encode(m.numRows, m.numCols, Listing(m.elements))) == Err(FormatError)
  {
    var es := Listing(m.elements);
    ListingNonEmpty(m.elements);
    var lines := Encode(m.numRows, m.numCols, es);
    var line := EntryText(es[0]) + "\n";
    assert lines[2] == line;
    ClassifyEntryLine(es[0]);
    assert !IsBlank(line);
    assert line[|line| - 1] == '\n';
    NewlineTerminatedDataLineRejected(lines, 2);
  }
}

=== FILE: sparse.dfy ===
/** The sparse matrix value: declared dimensions plus a store from populated
    coordinates to values, with element access and element update. An
    absent coordinate reads as zero. */
module Sparse {

  type Coord = (int, int)

  /** `numRows` and `numCols` are plain integers: a decoded matrix takes
      them from its file without any range check. */
  datatype SparseMatrix = SparseMatrix(numRows: int, numCols: int, elements: map<Coord, int>)

  /** The operation whose dimension check failed. */
  datatype Operation = Addition | Subtraction | Multiplication

  /** `FormatError` is the decoder's single failure; `DimensionMismatch`
      carries the operation whose shape requirement was violated. */
  datatype Error = FormatError | DimensionMismatch(op: Operation)

  datatype Result<+T> = Ok(value: T) | Err(error: Error)

  /** Some element of a non-empty set of coordinates, the way a loop over a
      dictionary's keys takes its next one. */
  ghost function Pick(s: set<Coord>): Coord
    requires s != {}
  {
    var x :| x in s; x
  }

  /** The sparsity invariant: no populated coordinate holds zero. */
  ghost predicate NoZeros(m: SparseMatrix) {
    forall k :: k in m.elements ==> m.elements[k] != 0
  }

  /** Every populated coordinate lies inside the declared dimensions. */
  ghost predicate InBounds(m: SparseMatrix) {
    && 0 <= m.numRows
    && 0 <= m.numCols
    && forall k :: k in m.elements ==> 0 <= k.0 < m.numRows && 0 <= k.1 < m.numCols
  }

  /** A matrix of the given shape with nothing stored. */
  function Empty(rows: int, cols: int): (m: SparseMatrix)
    ensures m.numRows == rows && m.numCols == cols
    ensures forall r, c :: Get(m, r, c) == 0
    ensures NoZeros(m)
  {
    SparseMatrix(rows, cols, map[])
  }

  /** Reading an element never fails, whatever the coordinates: a populated
      coordinate gives its stored value and any other gives zero, so in a
      zero-free store a coordinate is populated exactly when it reads as
      non-zero. */
  function Get(m: SparseMatrix, row: int, col: int): (v: int)
    ensures (row, col) in m.elements ==> v == m.elements[(row, col)]
    ensures (row, col) !in m.elements ==> v == 0
    ensures NoZeros(m) ==> ((row, col) in m.elements <==> v != 0)
  {
    if (row, col) in m.elements then m.elements[(row, col)] else 0
  }

  /** Writing an element: afterwards the coordinate reads as `value` and
      every other coordinate reads as before. A zero is never stored: it
      removes the coordinate, and is a no-op when the coordinate was not
      populated. Only the written coordinate can join or leave the store,
      and the dimensions and the sparsity invariant are kept. */
  function Set(m: SparseMatrix, row: int, col: int, value: int): (m': SparseMatrix)
    ensures m'.numRows == m.numRows && m'.numCols == m.numCols
    ensures forall r, c :: Get(m', r, c) == if (r, c) == (row, col) then value else Get(m, r, c)
    ensures value != 0 ==> (row, col) in m'.elements
    ensures value == 0 ==> (row, col) !in m'.elements
    ensures value == 0 && (row, col) !in m.elements ==> m' == m
    ensures forall k :: k != (row, col) ==> (k in m'.elements <==> k in m.elements)
    ensures NoZeros(m) ==> NoZeros(m')
  {
    if value != 0 then
      m.(elements := m.elements[(row, col) := value])
    else if (row, col) in m.elements then
      m.(elements := m.elements - {(row, col)})
    else
      m
  }

  /** Absence is the only representation of zero, so two zero-free stores
      that read alike at every coordinate are the same store. */
  lemma {:induction false} Canonical(m1: SparseMatrix, m2: SparseMatrix)
    requires NoZeros(m1) && NoZeros(m2)
    requires forall r, c :: Get(m1, r, c) == Get(m2, r, c)
    ensures m1.elements == m2.elements
  {
    forall k | k in m1.elements
      ensures k in m2.elements && m2.elements[k] == m1.elements[k]
    {
      assert Get(m1, k.0, k.1) == Get(m2, k.0, k.1);
    }
    forall k | k in m2.elements
      ensures k in m1.elements
    {
      assert Get(m1, k.0, k.1) == Get(m2, k.0, k.1);
    }
  }
}

=== FILE: text.dfy ===
/** The Python string primitives the matrix-file decoder is built from:
    `str.isspace`, `str.strip`, `str.split` with a one-character separator,
    `int()` on an already stripped decimal token, and the decimal rendering
    of an integer that a writer of matrix files would use. */
module Text {

  datatype Option<+T> = None | Some(value: T)

  /** Python's `str.isspace`: the ASCII control whitespace (tab .. carriage
      return), the information separators U+001C..U+001F, space, and the
      Unicode space characters. */
  predicate IsSpace(c: char) {
    var n := c as int;
    || 9 <= n <= 13
    || 28 <= n <= 32
    || n == 0x85 || n == 0xA0 || n == 0x1680
    || 0x2000 <= n <= 0x200A
    || n == 0x2028 || n == 0x2029 || n == 0x202F || n == 0x205F || n == 0x3000
  }

  predicate AllSpace(s: string) {
    forall k :: 0 <= k < |s| ==> IsSpace(s[k])
  }

  /** Neither end of `s` is whitespace (vacuously true of the empty string). */
  predicate Unpadded(s: string) {
    s == [] || (!IsSpace(s[0]) && !IsSpace(s[|s| - 1]))
  }

  /** `s.lstrip()`: the suffix left after dropping the longest whitespace prefix. */
  function TrimStart(s: string): (r: string)
    ensures |r| <= |s|
    decreases |s|
  {
    if |s| > 0 && IsSpace(s[0]) then TrimStart(s[1..]) else s
  }

  /** `s.rstrip()`: the prefix left after dropping the longest whitespace suffix. */
  function TrimEnd(s: string): (r: string)
    ensures |r| <= |s|
    decreases |s|
  {
    if |s| > 0 && IsSpace(s[|s| - 1]) then TrimEnd(s[..|s| - 1]) else s
  }

  /** What `lstrip` drops is whitespace, and what it keeps is a suffix that
      does not start with whitespace. */
  lemma {:induction false} TrimStartSplits(s: string)
    ensures var r := TrimStart(s);
      && r == s[|s| - |r|..]
      && AllSpace(s[..|s| - |r|])
      && (r == [] || !IsSpace(r[0]))
    decreases |s|
  {
    if |s| > 0 && IsSpace(s[0]) {
      TrimStartSplits(s[1..]);
      var r := TrimStart(s[1..]);
      assert s[..|s| - |r|] == [s[0]] + s[1..][..|s| - 1 - |r|];
    }
  }

  /** What `rstrip` drops is whitespace, and what it keeps is a prefix that
      does not end with whitespace. */
  lemma {:induction false} TrimEndSplits(s: string)
    ensures var r := TrimEnd(s);
      && r == s[..|r|]
      && AllSpace(s[|r|..])
      && (r == [] || !IsSpace(r[|r| - 1]))
    decreases |s|
  {
    if |s| > 0 && IsSpace(s[|s| - 1]) {
      TrimEndSplits(s[..|s| - 1]);
      var r := TrimEnd(s[..|s| - 1]);
      assert s[|r|..] == s[..|s| - 1][|r|..] + [s[|s| - 1]];
    }
  }

  /** `s.strip()`: empty exactly when `s` is all whitespace, otherwise a
      string whose two ends are not whitespace. */
  function Strip(s: string): (r: string)
    ensures r == [] <==> AllSpace(s)
    ensures Unpadded(r)
    ensures |r| <= |s|
  {
    var t := TrimStart(s);
    TrimStartSplits(s);
    var r := TrimEnd(t);
    TrimEndSplits(t);
    assert r == [] ==> s == s[..|s| - |t|] + t[|r|..];
    assert t != [] ==> t[0] == s[|s| - |t|];
    r
  }

  /** A line counts as blank when `line.strip()` is empty. */
  predicate IsBlank(s: string) {
    Strip(s) == []
  }

  lemma {:induction false} TrimStartPadded(pre: string, y: string)
    requires AllSpace(pre)
    requires y == [] || !IsSpace(y[0])
    ensures TrimStart(pre + y) == y
    decreases |pre|
  {
    if pre == [] {
      assert pre + y == y;
    } else {
      assert (pre + y)[1..] == pre[1..] + y;
      TrimStartPadded(pre[1..], y);
    }
  }

  lemma {:induction false} TrimEndPadded(y: string, post: string)
    requires AllSpace(post)
    requires y == [] || !IsSpace(y[|y| - 1])
    ensures TrimEnd(y + post) == y
    decreases |post|
  {
    if post == [] {
      assert y + post == y;
    } else {
      var n := |post| - 1;
      assert (y + post)[..|y + post| - 1] == y + post[..n];
      TrimEndPadded(y, post[..n]);
    }
  }

  /** Stripping removes exactly the whitespace around an unpadded core:
      the result of `Strip` is determined by the core alone. */
  lemma StripPadded(pre: string, x: string, post: string)
    requires AllSpace(pre) && AllSpace(post)
    requires Unpadded(x)
    ensures Strip(pre + x + post) == x
  {
    if x == [] {
      var s := pre + x + post;
      assert AllSpace(s) by {
        forall k | 0 <= k < |s| ensures IsSpace(s[k]) {
          if k < |pre| { assert s[k] == pre[k]; } else { assert s[k] == post[k - |pre|]; }
        }
      }
    } else {
      assert pre + x + post == pre + (x + post);
      TrimStartPadded(pre, x + post);
      TrimEndPadded(x, post);
    }
  }

  /** Stripping leaves an unpadded string alone. */
  lemma StripUnpadded(x: string)
    requires Unpadded(x)
    ensures Strip(x) == x
  {
    StripPadded([], x, []);
    assert [] + x + [] == x;
  }

  /** Stripping drops trailing whitespace after an unpadded core. */
  lemma StripTrailing(x: string, post: string)
    requires AllSpace(post) && Unpadded(x)
    ensures Strip(x + post) == x
  {
    StripPadded([], x, post);
    assert [] + x + post == x + post;
  }

  /** Stripping drops leading whitespace before an unpadded core. */
  lemma StripLeading(pre: string, x: string)
    requires AllSpace(pre) && Unpadded(x)
    ensures Strip(pre + x) == x
  {
    StripPadded(pre, x, []);
    assert pre + x + [] == pre + x;
  }

  /** Position of the first `c` in `s`, or `|s|` when `s` holds none. */
  function IndexOf(s: string, c: char): (i: nat)
    ensures i <= |s|
    decreases |s|
  {
    if |s| == 0 then 0
    else if s[0] == c then 0
    else 1 + IndexOf(s[1..], c)
  }

  /** `IndexOf` finds the first occurrence: `c` is at the position found,
      if any, and nowhere before it. */
  lemma {:induction false} IndexOfFirst(s: string, c: char)
    ensures IndexOf(s, c) < |s| ==> s[IndexOf(s, c)] == c
    ensures forall k :: 0 <= k < IndexOf(s, c) ==> s[k] != c
    decreases |s|
  {
    if |s| > 0 && s[0] != c {
      IndexOfFirst(s[1..], c);
      forall k | 0 <= k < IndexOf(s, c) ensures s[k] != c {
        if k > 0 {
          assert s[k] == s[1..][k - 1];
        }
      }
    }
  }

  /** `sep.join(parts)`. */
  function Join(parts: seq<string>, sep: char): string
    requires |parts| >= 1
    decreases |parts|
  {
    if |parts| == 1 then parts[0] else parts[0] + [sep] + Join(parts[1..], sep)
  }

  /** `s.split(sep)` for a one-character separator: the pieces between
      occurrences of `sep`, at least one. */
  function Split(s: string, sep: char): (parts: seq<string>)
    ensures |parts| >= 1
    decreases |s|
  {
    var i := IndexOf(s, sep);
    if i == |s| then [s] else [s[..i]] + Split(s[i + 1..], sep)
  }

  /** No piece of a split holds the separator. */
  lemma {:induction false} SplitPiecesFree(s: string, sep: char)
    ensures forall i :: 0 <= i < |Split(s, sep)| ==> sep !in Split(s, sep)[i]
    decreases |s|
  {
    var i := IndexOf(s, sep);
    IndexOfFirst(s, sep);
    if i == |s| {
      forall k | 0 <= k < |s| ensures s[k] != sep {
      }
    } else {
      SplitPiecesFree(s[i + 1..], sep);
      assert Split(s, sep)[1..] == Split(s[i + 1..], sep);
      forall k | 0 <= k < i ensures s[..i][k] != sep {
      }
    }
  }

  /** Joining the pieces of a split with the separator gives the input back. */
  lemma {:induction false} SplitJoins(s: string, sep: char)
    ensures Join(Split(s, sep), sep) == s
    decreases |s|
  {
    var i := IndexOf(s, sep);
    if i < |s| {
      IndexOfFirst(s, sep);
      SplitJoins(s[i + 1..], sep);
      assert Split(s, sep)[1..] == Split(s[i + 1..], sep);
      assert s == s[..i] + [sep] + s[i + 1..];
    }
  }

  /** The other half of the round trip: splitting a join of separator-free
      pieces gives back exactly those pieces. */
  lemma {:induction false} SplitOfJoin(parts: seq<string>, sep: char)
    requires |parts| >= 1
    requires forall i :: 0 <= i < |parts| ==> sep !in parts[i]
    ensures Split(Join(parts, sep), sep) == parts
    decreases |parts|
  {
    var s := Join(parts, sep);
    var p := parts[0];
    var i := IndexOf(s, sep);
    IndexOfFirst(s, sep);
    if |parts| == 1 {
      forall k | 0 <= k < |s| ensures s[k] != sep {
        assert s[k] in p;
      }
    } else {
      var tail := Join(parts[1..], sep);
      assert s == p + [sep] + tail;
      forall k | 0 <= k < |p| ensures s[k] != sep {
        assert s[k] == p[k];
        assert p[k] in p;
      }
      assert s[|p|] == sep;
      assert i == |p|;
      assert s[..i] == p;
      assert s[i + 1..] == tail;
      SplitOfJoin(parts[1..], sep);
      assert [p] + parts[1..] == parts;
    }
  }

  predicate IsDigit(c: char) {
    '0' <= c <= '9'
  }

  /** A non-empty run of ASCII decimal digits. */
  predicate IsNumeral(s: string) {
    |s| > 0 && forall k :: 0 <= k < |s| ==> IsDigit(s[k])
  }

  function DigitValue(c: char): nat
    requires IsDigit(c)
  {
    c as int - '0' as int
  }

  /** The value of a run of decimal digits (leading zeros allowed). */
  function DigitsValue(s: string): nat
    requires forall k :: 0 <= k < |s| ==> IsDigit(s[k])
    decreases |s|
  {
    if |s| == 0 then 0 else 10 * DigitsValue(s[..|s| - 1]) + DigitValue(s[|s| - 1])
  }

  /** `int(token)` on a token that has already been stripped: an optional
      `+` or `-` followed by one or more ASCII digits; anything else fails. */
  function ParseInt(s: string): (r: Option<int>)
    ensures r.Some? ==> s != [] && Unpadded(s)
    ensures r.Some? ==> forall k :: 0 <= k < |s| ==> IsDigit(s[k]) || (k == 0 && (s[k] == '+' || s[k] == '-'))
    ensures r.Some? <==> IsNumeral(s) || (|s| >= 2 && (s[0] == '+' || s[0] == '-') && IsNumeral(s[1..]))
  {
    if |s| > 0 && (s[0] == '+' || s[0] == '-') then
      if IsNumeral(s[1..]) then
        var n: int := DigitsValue(s[1..]);
        Some(if s[0] == '-' then -n else n)
      else None
    else if IsNumeral(s) then Some(DigitsValue(s))
    else None
  }

  /** A leading zero does not change the value of a run of digits. */
  lemma {:induction false} LeadingZeroValue(d: string)
    requires forall k :: 0 <= k < |d| ==> IsDigit(d[k])
    ensures DigitsValue("0" + d) == DigitsValue(d)
    decreases |d|
  {
    if |d| > 0 {
      var z := "0" + d;
      assert z[..|z| - 1] == "0" + d[..|d| - 1];
      LeadingZeroValue(d[..|d| - 1]);
    }
  }

  /** `int("0" + d) == int(d)`: leading zeros are read past, so `"007"` is 7. */
  lemma ParseIntLeadingZero(d: string)
    requires IsNumeral(d)
    ensures ParseInt("0" + d) == ParseInt(d)
  {
    LeadingZeroValue(d);
  }

  /** `int("+" + d) == int(d)`: an explicit plus sign changes nothing. */
  lemma ParseIntPlus(d: string)
    requires IsNumeral(d)
    ensures ParseInt("+" + d) == ParseInt(d)
  {
    assert ("+" + d)[1..] == d;
  }

  /** `int("-" + d) == -int(d)`: a minus sign negates, so `"-0"` is 0. */
  lemma ParseIntMinus(d: string)
    requires IsNumeral(d)
    ensures ParseInt(d).Some?
    ensures ParseInt("-" + d) == Some(-ParseInt(d).value)
  {
    assert ("-" + d)[1..] == d;
  }

  /** The decimal digits of `n`, most significant first, without leading zeros. */
  function NatToDigits(n: nat): (s: string)
    ensures IsNumeral(s)
    ensures DigitsValue(s) == n
    ensures s[0] != '0' || n == 0
    decreases n
  {
    var d := [(n % 10 + '0' as int) as char];
    if n < 10 then
      d
    else
      var s := NatToDigits(n / 10) + d;
      assert s[..|s| - 1] == NatToDigits(n / 10);
      s
  }

  /** `str(n)`: the text a writer of matrix files puts down for `n`. It is
      unpadded, holds only digits and a leading minus sign, and `ParseInt`
      reads it back as `n`. */
  function IntToString(n: int): (s: string)
    ensures Unpadded(s) && |s| > 0
    ensures forall k :: 0 <= k < |s| ==> IsDigit(s[k]) || (k == 0 && s[k] == '-')
    ensures ParseInt(s) == Some(n)
  {
    if n < 0 then
      var s := "-" + NatToDigits(-n);
      assert s[1..] == NatToDigits(-n);
      s
    else NatToDigits(n)
  }
}
